=== FILE: README.md ===
# Still Waters: session and conversation state, modelled in Dafny

Still Waters is a single-page faith-companion app (chat, devotionals,
scripture, prayer wall) written in React over a REST API. Almost all of
`src/App.jsx` is presentation. This project models its small sequential core:

- the **authentication context** (`AuthProvider`): the token persisted under
  `sw_token`, the in-memory token and user, the loading flag, and the
  transitions `login`, `signup`, `logout` and `fetchUser`, plus the
  token-change effect that drives `fetchUser`;
- the **chat screen's conversation store** (`ChatScreen`): the active list,
  the trash, the open conversation and its message log, the message box and
  the rename state, with the handlers `loadConversations`,
  `loadConversation`, `startNewConversation`, `sendMessage`,
  `deleteConversation` (soft delete with a hard-delete fallback),
  `restoreConversation`, `permanentlyDelete`, `startEditing` and `saveTitle`,
  plus the UI events that feed them (typing, the back arrow, Escape);
- the two pure helpers `generateTitle` and `formatDate`.

Every handler is a pure function from a state and the outcomes of the
requests it makes (`Wrappers.Outcome`: resolved with a payload, or failed) to
the next state. Clocks are parameters (`Instant` timestamps, millisecond
integers). `toLocaleDateString` is an uninterpreted function parameter.

Files, one module each:

- `wrappers.dfy` (`Wrappers`): `Option` and request `Outcome`.
- `text.dfy` (`Text`): JavaScript truthiness of strings, `trim`, `lastIndexOf` and the decimal rendering of integers.
- `helpers.dfy` (`Helpers`): `generateTitle` and `formatDate`.
- `session.dfy` (`Session`): the authentication context.
- `conversation_lists.dfy` (`ConversationLists`): conversation records, plus `filter`, `find` and the renaming `map`.
- `chat_store.dfy` (`ChatStore`): the chat screen's state and handlers, and the screen as an event-driven machine (`Apply`, `Run`).
- `chat_invariants.dfy` (`ChatInvariants`): the active/trash partition, the append-only message log and the delete/restore round trip.

Points where the code's behaviour is easy to misread, and which the model
follows exactly:

- `login` and `signup` do not turn every failure into a returned value. When `fetch` or `res.json()` throws, the promise rejects, and `AuthScreen` catches it (src/App.jsx:358). The model returns `Rejected` for this case and leaves the state unchanged.
- `formatDate` tests only `diffDays < 7`, so a timestamp in the future floors to a negative day count: one millisecond ahead reads "-1 days ago" (`Helpers.FormatDateFuture`).
- A successful `login` or `signup` only stores and sets the token. The user appears when the `fetchUser` that the token change triggers succeeds (`Session.LoginThenEffect`).
- When `startNewConversation` fails, the code only logs the error, clears its one-shot guard and ends loading. It shows no error to the user.

## Model

| member | source | states |
|---|---|---|
| Text.Trim | src/App.jsx:751-758 | the trimmed title is the input with only ECMAScript whitespace removed from both ends, and it is empty exactly when the input is all whitespace |
| Text.TrimIdempotent | src/App.jsx:751-758 | trimming the already-trimmed title changes nothing |
| Text.LastIndexOf | src/App.jsx:546 | the result is -1 exactly when the character is absent; otherwise it is an index holding the character with none after it |
| Text.IntToStringRoundTrip | src/App.jsx:534 | the decimal text of an integer in a template literal reads back to that integer |
| Text.IntToStringInjective | src/App.jsx:534 | different day counts render as different text |
| Helpers.GenerateTitle | src/App.jsx:541-548 | empty content gives "New Conversation"; content of at most 40 characters is kept; longer content gives a prefix of itself plus "...", cut at the last space past index 20 within the first 40 characters, else at 40, so the title never exceeds 43 characters |
| Helpers.TitleCutUnique | src/App.jsx:544-547 | only one cut point satisfies the truncation rule |
| Helpers.GenerateTitleLongForm | src/App.jsx:544-547 | a long title is exactly the content up to the cut point, followed by "..." |
| Helpers.DaysBetween | src/App.jsx:531 | the day difference is the floor of the millisecond difference divided by 86400000, also for future dates |
| Helpers.FloorDaysUnique | src/App.jsx:531 | the floored day count of a millisecond difference is unique |
| Helpers.FormatDate | src/App.jsx:525-539 | a missing or unparsable date gives ""; day difference 0 gives "Today", 1 gives "Yesterday", any other value below 7 gives "N days ago", and 7 or more gives the locale short date |
| Helpers.RelativeLabelInjective | src/App.jsx:532-534 | two dates with the same relative label lie the same number of whole days back |
| Helpers.FormatDateToday | src/App.jsx:531-532 | a timestamp less than a day old, and not in the future, reads "Today" |
| Helpers.FormatDateYesterday | src/App.jsx:531-533 | a timestamp between one and two days old reads "Yesterday" |
| Helpers.FormatDateOld | src/App.jsx:531-535 | a timestamp a week old or older reads as the locale short date |
| Helpers.FormatDateFuture | src/App.jsx:531-534 | a timestamp one millisecond in the future reads "-1 days ago" |
| Session.StatusOf | src/App.jsx:1404-1410 | the loading screen shows exactly while loading; the app shows exactly when loading has ended and a user is present |
| Session.Mount | src/App.jsx:16-18 | at mount both the stored and the in-memory token are the value read from storage, no user is set and loading is on |
| Session.Logout | src/App.jsx:77-81 | storage, token and user are cleared and the loading flag is untouched |
| Session.FetchUser | src/App.jsx:28-45 | loading always ends; the user is set exactly when the reply is ok; a non-ok reply or a thrown request logs out |
| Session.TokenEffect | src/App.jsx:20-26 | with a truthy token the effect is exactly `fetchUser`; without one only loading ends; loading ends either way |
| Session.Authenticate | src/App.jsx:47-75 | success exactly when the reply is ok and carries a truthy token, which is then both stored and set; otherwise the state is untouched and the result is the server message, the fallback text, or a rejection |
| Session.Login | src/App.jsx:47-60 | login succeeds exactly on an ok reply with a token, and then only the stored and the in-memory token change, both to that token; a refusal carries the server message or "Login failed"; a failed request rejects |
| Session.Signup | src/App.jsx:62-75 | signup succeeds exactly on an ok reply with a token, and then only the stored and the in-memory token change, both to that token; a refusal carries the server message or "Signup failed"; a failed request rejects |
| Session.StepMirrored | src/App.jsx:47-81 | every transition keeps the stored token equal to the in-memory token |
| Session.RunMirrored | src/App.jsx:15-81 | along any sequence of transitions from mount, storage and token never diverge |
| Session.RestoreSettles | src/App.jsx:17-45 | restoring a stored session never stays loading; it authenticates exactly when a truthy stored token gets an ok reply, and otherwise clears a rejected token from storage |
| Session.LogoutSettles | src/App.jsx:77-81 | logout followed by the token effect lands unauthenticated with nothing stored |
| Session.LoginThenEffect | src/App.jsx:47-60 | after a successful login, the triggered profile fetch authenticates exactly when it succeeds, with the new token persisted |
| Session.LoginScenarios | src/App.jsx:47-60 | the reply `{token: "t1"}` persists "t1" and succeeds; an error reply with message "Invalid credentials" changes nothing and reports that message |
| ConversationLists.Filter | src/App.jsx:588 | the filtered list keeps exactly the elements passing the test, each as many times as it occurred |
| ConversationLists.FilterAppend | src/App.jsx:588 | filtering a concatenation is concatenating the filtered parts, so kept elements stay in their order |
| ConversationLists.FilterSingleton | src/App.jsx:593 | a single element is kept exactly when it passes the test; with `FilterAppend` this fixes the filtered list completely |
| ConversationLists.Without | src/App.jsx:699 | removing an id keeps exactly the entries with other ids, each as many times as it occurred; `WithoutAppend` and `WithoutSingleton` fix their order |
| ConversationLists.IndexOf | src/App.jsx:695 | the result is -1 exactly when no entry has the id; otherwise it is the first entry with that id |
| ConversationLists.Find | src/App.jsx:724 | the lookup is absent exactly when no entry has the id; otherwise it returns the first entry with that id |
| ConversationLists.Retitle | src/App.jsx:760-762 | the list keeps its length, ids and deletion stamps; entries with the id get the title and all others are unchanged |
| ConversationLists.RetitleKeepsIds | src/App.jsx:671-673 | renaming changes neither the set of ids nor the fact that no entry is trashed |
| ConversationLists.WithoutAppend | src/App.jsx:699 | removing an id from a concatenation removes it from each part, so the kept entries stay in their order |
| ConversationLists.WithoutSingleton | src/App.jsx:737 | a single entry is kept exactly when its id differs; with `WithoutAppend` this fixes the result entry by entry |
| ConversationLists.WithoutAbsent | src/App.jsx:728 | removing an absent id leaves the list as it was |
| ChatStore.Load | src/App.jsx:583-601 | on two successful listings the active list is the first listing's entries without `deleted_at` and the trash is the second listing's entries with it, both in the listings' order; if either request fails both lists become empty; loading ends and nothing else changes |
| ChatStore.Open | src/App.jsx:603-616 | while a rename is in progress a click does nothing; otherwise the fetched conversation is opened and its log replaces the current one; a failed fetch only ends loading |
| ChatStore.Close | src/App.jsx:876 | the back arrow closes the conversation and empties the log; every other field, both lists, the input, rename mode and loading, is unchanged |
| ChatStore.StartNew | src/App.jsx:618-637 | a created conversation with an id goes to the head of the active list and is opened with an empty log, loading ends and nothing else changes, rename mode included; otherwise only loading ends |
| ChatStore.Send | src/App.jsx:639-687 | a blank input or no open conversation changes nothing; otherwise the log grows by exactly the untrimmed user message and then the assistant entry of `AssistantMessage` (the reply stamped with its own `created_at` or the reply time, or the fixed apology), earlier messages stay, the input is cleared and the trash is untouched; the title changes only on a first successful exchange with a successful rename |
| ChatStore.AssistantMessage | src/App.jsx:656-661 | the assistant's entry carries the reply's content, stamped with the reply's own `created_at` when that is truthy and with the reply time otherwise; a failed request gives the fixed apology stamped with the reply time |
| ChatStore.CloseIf | src/App.jsx:700-703 | the open conversation is closed, with its log emptied, exactly when it has the deleted id, and every other field is unchanged; otherwise nothing changes |
| ChatStore.Delete | src/App.jsx:689-716 | a successful soft delete moves the entry from the active list to the head of the trash, stamped; the hard-delete fallback only removes it from the active list; on either path the active list is the old one without that id, in order, the conversation is closed if open, and the input and rename state are unchanged; two failures change nothing |
| ChatStore.Restore | src/App.jsx:718-732 | on success the entry returns to the head of the active list with `deleted_at` cleared and the trash is the old one without that id, in order; on failure nothing changes |
| ChatStore.Purge | src/App.jsx:734-741 | on success the trash is the old one without the entries with that id, in order, and nothing else changes; on failure nothing changes |
| ChatStore.StartEditing | src/App.jsx:743-747 | rename mode starts for the conversation, prefilled with its title or "New Conversation"; nothing else changes |
| ChatStore.SaveTitle | src/App.jsx:749-768 | rename mode always ends; a blank title or a failed request leaves the lists alone; on success only the active entries with the id get the trimmed title, and the trash and the open conversation are untouched |
| ChatStore.CancelEdit | src/App.jsx:773-775 | Escape ends rename mode and changes nothing else |
| ChatInvariants.EditThenSaveUnchanged | src/App.jsx:743-768 | opening the rename box on an active conversation with an already-trimmed title and saving it untouched keeps that conversation exactly as it was, keeps the set of ids, and ends rename mode |
| ChatInvariants.EditThenCancel | src/App.jsx:743-775 | opening the rename box and pressing Escape changes nothing but the text left in the rename box |
| ChatInvariants.InitialPartitioned | src/App.jsx:555-556 | the screen starts with disjoint, empty lists |
| ChatInvariants.LoadPartitioned | src/App.jsx:583-601 | after loading, active entries carry no `deleted_at` and trashed ones do; the lists are disjoint when the two listings agree |
| ChatInvariants.StartNewPartitioned | src/App.jsx:618-637 | creating a conversation with a fresh id keeps the lists disjoint |
| ChatInvariants.SendPartitioned | src/App.jsx:663-677 | the title update after a first message keeps the partition |
| ChatInvariants.DeletePartitioned | src/App.jsx:689-716 | soft delete, the hard-delete fallback and double failure all keep the lists disjoint and partitioned by `deleted_at` |
| ChatInvariants.RestorePartitioned | src/App.jsx:718-732 | restore keeps the lists disjoint and partitioned by `deleted_at` |
| ChatInvariants.SaveTitlePartitioned | src/App.jsx:749-768 | renaming keeps the lists disjoint and partitioned by `deleted_at` |
| ChatInvariants.StepPartitioned | src/App.jsx:583-768 | every handler keeps the partition, given a server whose listings agree and whose new ids are fresh |
| ChatInvariants.RunPartitioned | src/App.jsx:583-768 | along any sequence of handlers against such a server, no conversation is ever both active and trashed |
| ChatInvariants.StepLogAppendOnly | src/App.jsx:639-687 | an event that does not switch conversations only appends to the log: two entries for an accepted send, none otherwise |
| ChatInvariants.RunLogAppendOnly | src/App.jsx:639-687 | within one conversation the log is append-only and grows by exactly two entries per accepted send |
| ChatInvariants.SendNeverRetracts | src/App.jsx:643-686 | the user's message and all earlier messages remain after a send, and a failed send ends with the apology |
| ChatInvariants.SendTitleAgrees | src/App.jsx:670-673 | after a first-message rename, the open view and the active list show the same title |
| ChatInvariants.DeleteThenRestore | src/App.jsx:689-732 | soft delete then restore, both succeeding, leaves the trash as it was and puts the conversation back at the head of the active list without `deleted_at` |

## Left out

- Rendering: the JSX, the `Icons` SVGs, the splash screen's word-reveal timers and the scroll-into-view effect. These are presentation and timing.
- The other screens: devotional, scriptures, prayers with the prayer counter, profile editing, and the greeting. Each is a thin wrapper over one request.
- The app root's screen navigation is left out, apart from its loading/auth gate (`Session.StatusOf`).
- `fetch`, the `useApi` request wrapper, `localStorage` and `console`. A request becomes an `Outcome`. For requests through `useApi`, `Failed` means a non-2xx status or a thrown error (src/App.jsx:107). `login`, `signup` and `fetchUser` call `fetch` directly and read the status themselves, so for them the status is the `ok` field of `AuthReply` or `UserReply`, and `Failed` means only a thrown network or parse error. Storage is the `stored` field. Logging has no effect.
- Request headers and bodies (the bearer token, the JSON sent). The model keeps only what the state depends on.
- Async interleaving and stale closures. Each handler runs to completion before the next, so a reply that arrives after the user navigates away is not modelled.
- The `sending` flag. Between handlers it is always false, and it only disables the message box while a send is in flight.
- The `hasStartedNewChat` ref and the `params.newChat` effect. This is a one-shot guard on navigation parameters.
- The `showTrash` toggle, a pure view switch.
- Duck-typed response unwrapping. Only list responses are unwrapped (`conversations` field, else a bare array, else empty). The reply (`assistantMessage`, `message`, `response`, `content`), the created conversation and the thread are taken as already unwrapped. A missing reply timestamp falls back to the reply time.
- Record fields other than id, title and `deleted_at`. The object spreads carry them unchanged. The user profile is kept as received.
- Helpers.GenerateTitle: lengths count Unicode scalar values, whereas JavaScript counts UTF-16 code units. Text outside the Basic Multilingual Plane can be cut at a different place.
- Helpers.FormatDate: parsing the date string is not modelled. The input is already a millisecond timestamp, or missing, or unparsable. Locale formatting is an uninterpreted parameter.
- ChatInvariants.RunPartitioned: disjointness after loading or creating depends on the server. The listings must agree on which ids are trashed, and a new conversation must have a fresh, untrashed id. These conditions are requires of the lemma, not checks the client makes.

=== FILE: chat_invariants.dfy ===
/** What the chat screen's handlers preserve: the active list and the trash
    partition the known conversations by `deleted_at`, and the message log
    of an open conversation only ever grows, two entries per send. */
module ChatInvariants {
  import opened Wrappers
  import opened Text
  import opened ConversationLists
  import opened ChatStore

  /** No id is both active and trashed; active entries have no `deleted_at`
      and trashed ones have one. */
  ghost predicate Partitioned(s: ChatState) {
    && Ids(s.conversations) !! Ids(s.deleted)
    && (forall c :: c in s.conversations ==> !IsTrashed(c))
    && (forall c :: c in s.deleted ==> IsTrashed(c))
  }

  /** What the client has to trust the server for: the two listings agree on
      which ids are trashed, and a newly created conversation has a fresh id
      and is not trashed. Every other event is under the client's control. */
  ghost predicate Plausible(s: ChatState, e: Event) {
    match e
    case LoadLists(Ok(a), Ok(b)) =>
      forall x, y :: x in Unwrap(a) && y in Unwrap(b) && !IsTrashed(x) && IsTrashed(y) ==> x.id != y.id
    case NewConversation(created) =>
      Created(created) ==>
        created.payload.id !in Ids(s.conversations) + Ids(s.deleted) && !IsTrashed(created.payload)
    case _ => true
  }

  lemma InitialPartitioned()
    ensures Partitioned(Initial)
  {
  }

  lemma LoadPartitioned(s: ChatState, first: Outcome<Listing>, second: Outcome<Listing>)
    requires Plausible(s, LoadLists(first, second))
    ensures Partitioned(Load(s, first, second))
  {
    var r := Load(s, first, second);
    if first.Ok? && second.Ok? {
      forall c | c in r.conversations ensures !IsTrashed(c) && c in Unwrap(first.payload) {
        assert multiset(r.conversations)[c] > 0;
      }
      forall c | c in r.deleted ensures IsTrashed(c) && c in Unwrap(second.payload) {
        assert multiset(r.deleted)[c] > 0;
      }
    }
  }

  lemma StartNewPartitioned(s: ChatState, created: Outcome<Conversation>)
    requires Partitioned(s) && Plausible(s, NewConversation(created))
    ensures Partitioned(StartNew(s, created))
  {
    if Created(created) {
      IdsCons(created.payload, s.conversations);
    }
  }

  lemma SendPartitioned(s: ChatState, sentAt: Instant, repliedAt: Instant, reply: Outcome<Reply>, rename: Ack)
    requires Partitioned(s)
    ensures Partitioned(Send(s, sentAt, repliedAt, reply, rename))
  {
    if RenamesAfterSend(s, reply, rename) {
      RetitleKeepsIds(s.conversations, s.current.value.id, Helpers.GenerateTitle(s.input));
    }
  }

  /** A soft delete, its hard-delete fallback, or a double failure keeps the
      partition: the id leaves the active list and, on the soft path, enters
      the trash stamped as deleted. */
  lemma DeletePartitioned(s: ChatState, id: Id, now: Instant, patch: Ack, hard: Ack)
    requires Partitioned(s)
    ensures Partitioned(Delete(s, id, now, patch, hard))
  {
    var r := Delete(s, id, now, patch, hard);
    if patch.Ok? && id in Ids(s.conversations) {
      IdsCons(r.deleted[0], s.deleted);
      assert r.deleted == [r.deleted[0]] + s.deleted;
    }
  }

  lemma RestorePartitioned(s: ChatState, id: Id, patch: Ack)
    requires Partitioned(s)
    ensures Partitioned(Restore(s, id, patch))
  {
    var r := Restore(s, id, patch);
    if patch.Ok? && id in Ids(s.deleted) {
      IdsCons(r.conversations[0], s.conversations);
      assert r.conversations == [r.conversations[0]] + s.conversations;
    }
  }

  lemma SaveTitlePartitioned(s: ChatState, id: Id, patch: Ack)
    requires Partitioned(s)
    ensures Partitioned(SaveTitle(s, id, patch))
  {
    RetitleKeepsIds(s.conversations, id, Trim(s.editTitle));
  }

  /** Every handler keeps the partition, given a plausible server. */
  lemma StepPartitioned(s: ChatState, e: Event)
    requires Partitioned(s) && Plausible(s, e)
    ensures Partitioned(Apply(s, e))
  {
    match e
    case LoadLists(a, b) => LoadPartitioned(s, a, b);
    case OpenThread(t) =>
    case Back =>
    case NewConversation(c) => StartNewPartitioned(s, c);
    case TypeInput(text) =>
    case SendInput(at, back, reply, rename) => SendPartitioned(s, at, back, reply, rename);
    case SoftDelete(id, now, patch, hard) => DeletePartitioned(s, id, now, patch, hard);
    case RestoreFromTrash(id, patch) => RestorePartitioned(s, id, patch);
    case PurgeFromTrash(id, del) =>
    case BeginRename(c) =>
    case TypeTitle(text) =>
    case CommitRename(id, patch) => SaveTitlePartitioned(s, id, patch);
    case CancelRename =>
  }

  /** The server is plausible at every step of the trace. */
  ghost predicate PlausibleRun(s: ChatState, trace: seq<Event>)
    decreases |trace|
  {
    |trace| == 0 || (Plausible(s, trace[0]) && PlausibleRun(Apply(s, trace[0]), trace[1..]))
  }

  /** From the empty screen, any sequence of handlers against a plausible
      server leaves every conversation in at most one of the two lists, on
      the side its `deleted_at` says. */
  lemma {:induction false} RunPartitioned(s: ChatState, trace: seq<Event>)
    requires Partitioned(s) && PlausibleRun(s, trace)
    ensures Partitioned(Run(s, trace))
    decreases |trace|
  {
    if |trace| > 0 {
      StepPartitioned(s, trace[0]);
      RunPartitioned(Apply(s, trace[0]), trace[1..]);
    }
  }

  // ---------------------------------------------------------------------
  // The message log

  /** Events that replace or clear the log: opening, closing, creating, or
      deleting the open conversation. */
  predicate SwitchesThread(e: Event) {
    e.OpenThread? || e.Back? || e.NewConversation? || e.SoftDelete?
  }

  /** Number of sends along the trace that went ahead. */
  function SendsAccepted(s: ChatState, trace: seq<Event>): nat
    decreases |trace|
  {
    if |trace| == 0 then 0
    else (if trace[0].SendInput? && CanSend(s) then 1 else 0) + SendsAccepted(Apply(s, trace[0]), trace[1..])
  }

  /** One event that does not switch threads only appends to the log: two
      entries for an accepted send, none otherwise. */
  lemma StepLogAppendOnly(s: ChatState, e: Event)
    requires !SwitchesThread(e)
    ensures var r := Apply(s, e);
      && |s.messages| <= |r.messages|
      && r.messages[..|s.messages|] == s.messages
      && |r.messages| == |s.messages| + (if e.SendInput? && CanSend(s) then 2 else 0)
  {
  }

  /** Along any trace that stays in one thread the log is append-only and
      grows by exactly two entries per accepted send. */
  lemma {:induction false} RunLogAppendOnly(s: ChatState, trace: seq<Event>)
    requires forall i :: 0 <= i < |trace| ==> !SwitchesThread(trace[i])
    ensures var r := Run(s, trace);
      && |s.messages| <= |r.messages|
      && r.messages[..|s.messages|] == s.messages
      && |r.messages| == |s.messages| + 2 * SendsAccepted(s, trace)
    decreases |trace|
  {
    if |trace| > 0 {
      var s1 := Apply(s, trace[0]);
      StepLogAppendOnly(s, trace[0]);
      RunLogAppendOnly(s1, trace[1..]);
      var r := Run(s1, trace[1..]);
      assert r.messages[..|s.messages|] == r.messages[..|s1.messages|][..|s.messages|];
    }
  }

  /** Whatever the send request does, the user's message stays in the log
      and the trash is left alone. */
  lemma SendNeverRetracts(s: ChatState, sentAt: Instant, repliedAt: Instant, reply: Outcome<Reply>, rename: Ack)
    requires CanSend(s)
    ensures var r := Send(s, sentAt, repliedAt, reply, rename);
      && Message(UserRole, s.input, sentAt) in r.messages
      && (forall m :: m in s.messages ==> m in r.messages)
      && (reply.Failed? ==> r.messages[|r.messages| - 1].content == FallbackReply)
  {
    var r := Send(s, sentAt, repliedAt, reply, rename);
    assert r.messages[|s.messages|] in r.messages;
    forall m | m in s.messages ensures m in r.messages {
      var i :| 0 <= i < |s.messages| && s.messages[i] == m;
      assert r.messages[..|s.messages|][i] == r.messages[i];
    }
  }

  /** After the first exchange renames a conversation, the open view and the
      active list agree on its title. */
  lemma SendTitleAgrees(s: ChatState, sentAt: Instant, repliedAt: Instant, reply: Outcome<Reply>, rename: Ack)
    requires RenamesAfterSend(s, reply, rename)
    ensures var r := Send(s, sentAt, repliedAt, reply, rename);
      forall i :: 0 <= i < |r.conversations| && r.conversations[i].id == r.current.value.id ==>
        r.conversations[i].title == r.current.value.title
  {
  }

  // ---------------------------------------------------------------------
  // Renaming

  /** Opening the rename box on an active conversation whose title is already
      trimmed and saving it untouched, with the request succeeding, leaves
      that conversation in the active list exactly as it was and ends rename
      mode. */
  lemma EditThenSaveUnchanged(s: ChatState, c: Conversation)
    requires c in s.conversations && Truthy(c.title) && Trim(c.title.value) == c.title.value
    ensures var r := SaveTitle(StartEditing(s, c), c.id, Ok(()));
      && c in r.conversations
      && r.editingId.None?
      && Ids(r.conversations) == Ids(s.conversations)
  {
    var e := StartEditing(s, c);
    var t := c.title.value;
    assert !IsBlank(e.editTitle);
    var r := SaveTitle(e, c.id, Ok(()));
    assert r.conversations == Retitle(s.conversations, c.id, t);
    var i :| 0 <= i < |s.conversations| && s.conversations[i] == c;
    assert r.conversations[i] == c.(title := Some(t)) == c;
    RetitleKeepsIds(s.conversations, c.id, t);
  }

  /** Opening the rename box and pressing Escape changes nothing but the text
      left in the rename box. */
  lemma EditThenCancel(s: ChatState, c: Conversation)
    requires s.editingId.None?
    ensures CancelEdit(StartEditing(s, c)) == s.(editTitle := StartEditing(s, c).editTitle)
  {
  }

  // ---------------------------------------------------------------------
  // Delete and restore

  /** Soft-deleting an active conversation and restoring it (both requests
      succeeding) leaves the trash as it was and puts the conversation back at
      the head of the active list with no `deleted_at`. */
  lemma DeleteThenRestore(s: ChatState, id: Id, now: Instant, hard: Ack)
    requires Partitioned(s) && id in Ids(s.conversations)
    ensures var r := Restore(Delete(s, id, now, Ok(()), hard), id, Ok(()));
      && r.deleted == s.deleted
      && r.conversations == [Find(s.conversations, id).value.(deletedAt := None)] + Without(s.conversations, id)
      && Ids(r.conversations) == Ids(s.conversations)
  {
    var c := Find(s.conversations, id).value;
    var mid := Delete(s, id, now, Ok(()), hard);
    var stamped := c.(deletedAt := Some(now));
    assert mid.deleted == [stamped] + s.deleted;
    assert IndexOf(mid.deleted, id) == 0;
    assert Find(mid.deleted, id) == Some(stamped);
    WithoutHead(stamped, s.deleted);
    WithoutAbsent(s.deleted, id);
    IdsCons(c.(deletedAt := None), Without(s.conversations, id));
  }
}

=== FILE: chat_store.dfy ===
/** The chat screen's state and its handlers, each a pure transition taking
    the outcomes of the requests it makes. The model is sequential: a handler
    runs to completion, its awaited requests included, before the next one. */
module ChatStore {
  import opened Wrappers
  import opened Text
  import opened Helpers
  import opened ConversationLists

  datatype Role = UserRole | AssistantRole

  datatype Message = Message(role: Role, content: string, createdAt: string)

  datatype ChatState = ChatState(
    conversations: seq<Conversation>,   // the active list
    deleted: seq<Conversation>,         // the trash
    current: Option<Conversation>,      // the open conversation
    messages: seq<Message>,             // its message log
    input: string,                      // the message box
    editingId: Option<Id>,              // the conversation being renamed
    editTitle: string,                  // the rename box
    loading: bool)

  const Initial := ChatState([], [], None, [], "", None, "", true)

  const FallbackReply := "I apologize, but I encountered an error. Please try again."

  /** A timestamp from `new Date().toISOString()`, never empty. */
  type Instant = t: string | t != "" witness "1970-01-01T00:00:00.000Z"

  /** Everything but the two lists is as it was. */
  predicate SameView(s: ChatState, r: ChatState) {
    && r.current == s.current && r.messages == s.messages && r.input == s.input
    && r.editingId == s.editingId && r.editTitle == s.editTitle
  }

  // ---------------------------------------------------------------------
  // loadConversations

  /** A list response: `{conversations: [...]}`, a bare array, or anything else. */
  datatype Listing = Wrapped(conversations: seq<Conversation>) | Bare(items: seq<Conversation>) | Unrecognised

  /** The list inside a list response: the `conversations` field, else the
      response itself when it is an array, else nothing. */
  function Unwrap(l: Listing): seq<Conversation> {
    match l
    case Wrapped(cs) => cs
    case Bare(cs) => cs
    case Unrecognised => []
  }

  /** loadConversations: the active list is the first listing without its
      trashed entries, the trash is the second listing's trashed entries, both
      in the listings' order (see `Filter`); if either request fails both
      lists end up empty. */
  function Load(s: ChatState, first: Outcome<Listing>, second: Outcome<Listing>): (r: ChatState)
    ensures !r.loading && SameView(s, r)
    ensures first.Ok? && second.Ok? ==>
      && r.conversations == Filter(Unwrap(first.payload), IsLive)
      && r.deleted == Filter(Unwrap(second.payload), IsTrashed)
    ensures !(first.Ok? && second.Ok?) ==> r.conversations == [] && r.deleted == []
  {
    match (first, second)
    case (Ok(a), Ok(b)) =>
      s.(conversations := Filter(Unwrap(a), IsLive),
         deleted := Filter(Unwrap(b), IsTrashed),
         loading := false)
    case _ => s.(conversations := [], deleted := [], loading := false)
  }

  // ---------------------------------------------------------------------
  // loadConversation and the back button

  /** `GET /conversations/:id`, unwrapped to the conversation and its log. */
  datatype Thread = Thread(conversation: Conversation, log: seq<Message>)

  /** True while a rename is in progress; clicks on list entries are ignored. */
  predicate IsEditing(s: ChatState) {
    Truthy(s.editingId)
  }

  /** Clicking a list entry: unless a rename is in progress, the fetched
      conversation is opened and its log replaces the current one. A failed
      fetch only ends loading. */
  function Open(s: ChatState, reply: Outcome<Thread>): (r: ChatState)
    ensures IsEditing(s) ==> r == s
    ensures !IsEditing(s) && reply.Ok? ==>
      r == s.(current := Some(reply.payload.conversation), messages := reply.payload.log, loading := false)
    ensures !IsEditing(s) && reply.Failed? ==> r == s.(loading := false)
  {
    if IsEditing(s) then s
    else match reply
      case Ok(t) => s.(current := Some(t.conversation), messages := t.log, loading := false)
      case Failed => s.(loading := false)
  }

  /** The back arrow of an open conversation. */
  function Close(s: ChatState): (r: ChatState)
    ensures r.current.None? && r.messages == []
    ensures r.conversations == s.conversations && r.deleted == s.deleted
    ensures r.input == s.input && r.editingId == s.editingId && r.editTitle == s.editTitle
    ensures r.loading == s.loading
  {
    s.(current := None, messages := [])
  }

  // ---------------------------------------------------------------------
  // startNewConversation

  /** The create request returned a conversation with a truthy id. */
  predicate Created(reply: Outcome<Conversation>) {
    reply.Ok? && reply.payload.id != ""
  }

  /** startNewConversation: a created conversation goes to the head of the
      active list and is opened with an empty log; otherwise only loading ends. */
  function StartNew(s: ChatState, reply: Outcome<Conversation>): (r: ChatState)
    ensures !r.loading && r.deleted == s.deleted && r.input == s.input
    ensures Created(reply) ==>
      && r.conversations == [reply.payload] + s.conversations
      && r.current == Some(reply.payload) && r.messages == []
      && r.editingId == s.editingId && r.editTitle == s.editTitle
    ensures !Created(reply) ==> r == s.(loading := false)
  {
    if Created(reply) then
      s.(current := Some(reply.payload), messages := [],
         conversations := [reply.payload] + s.conversations, loading := false)
    else s.(loading := false)
  }

  // ---------------------------------------------------------------------
  // sendMessage

  /** The assistant message in a send response, unwrapped. */
  datatype Reply = Reply(content: string, createdAt: Option<string>)

  /** A send goes ahead only with a non-blank input and an open conversation. */
  predicate CanSend(s: ChatState) {
    !IsBlank(s.input) && s.current.Some?
  }

  /** The conversation is renamed after a send only when its log was empty,
      the send succeeded and the rename request succeeded. */
  predicate RenamesAfterSend(s: ChatState, reply: Outcome<Reply>, rename: Ack) {
    CanSend(s) && |s.messages| == 0 && reply.Ok? && rename.Ok?
  }

  /** The assistant's entry in the log: the server's reply with its own
      timestamp when that is truthy, else stamped with the reply time; the
      fixed apology when the request failed. */
  function AssistantMessage(reply: Outcome<Reply>, repliedAt: Instant): (m: Message)
    ensures m.role == AssistantRole
    ensures reply.Ok? ==> m.content == reply.payload.content
    ensures reply.Ok? && Truthy(reply.payload.createdAt) ==> m.createdAt == reply.payload.createdAt.value
    ensures reply.Ok? && !Truthy(reply.payload.createdAt) ==> m.createdAt == repliedAt
    ensures reply.Failed? ==> m.content == FallbackReply && m.createdAt == repliedAt
    ensures m.createdAt != ""
  {
    match reply
    case Ok(m) => Message(AssistantRole, m.content, if Truthy(m.createdAt) then m.createdAt.value else repliedAt)
    case Failed => Message(AssistantRole, FallbackReply, repliedAt)
  }

  /** sendMessage. The user's message (the input as typed, untrimmed) and then
      the assistant's reply, or the fixed apology if the request failed, are
      appended and the input is cleared. The first exchange of a conversation
      also retitles it, in the open view and in the active list, when the
      rename request succeeds. */
  function Send(s: ChatState, sentAt: Instant, repliedAt: Instant,
                reply: Outcome<Reply>, rename: Ack): (r: ChatState)
    ensures !CanSend(s) ==> r == s
    ensures CanSend(s) ==>
      && |r.messages| == |s.messages| + 2
      && r.messages[..|s.messages|] == s.messages
      && r.messages[|s.messages|] == Message(UserRole, s.input, sentAt)
      && r.messages[|s.messages| + 1] == AssistantMessage(reply, repliedAt)
      && r.input == ""
      && r.deleted == s.deleted && r.loading == s.loading
      && r.editingId == s.editingId && r.editTitle == s.editTitle
      && r.current.Some? && r.current.value.id == s.current.value.id
    ensures RenamesAfterSend(s, reply, rename) ==>
      var title := GenerateTitle(s.input);
      && r.current == Some(s.current.value.(title := Some(title)))
      && r.conversations == Retitle(s.conversations, s.current.value.id, title)
    ensures CanSend(s) && !RenamesAfterSend(s, reply, rename) ==>
      r.current == s.current && r.conversations == s.conversations
  {
    if !CanSend(s) then s
    else
      var open := s.current.value;
      var user := Message(UserRole, s.input, sentAt);
      var sent := s.(messages := s.messages + [user, AssistantMessage(reply, repliedAt)], input := "");
      if RenamesAfterSend(s, reply, rename) then
        var title := GenerateTitle(s.input);
        sent.(current := Some(open.(title := Some(title))),
              conversations := Retitle(s.conversations, open.id, title))
      else sent
  }

  // ---------------------------------------------------------------------
  // deleteConversation, restoreConversation, permanentlyDelete

  /** Closes the open conversation if it is the one with this id. */
  function CloseIf(s: ChatState, id: Id): (r: ChatState)
    ensures s.current.Some? && s.current.value.id == id ==>
      && r.current.None? && r.messages == []
      && r.conversations == s.conversations && r.deleted == s.deleted
      && r.input == s.input && r.editingId == s.editingId && r.editTitle == s.editTitle
      && r.loading == s.loading
    ensures !(s.current.Some? && s.current.value.id == id) ==> r == s
  {
    if s.current.Some? && s.current.value.id == id then s.(current := None, messages := []) else s
  }

  /** deleteConversation. A successful soft delete (PATCH of `deleted_at`)
      moves the entry from the active list to the head of the trash, stamped
      with `now`; if it fails, a successful hard delete removes the entry from
      the active list only; if both fail nothing changes. Either successful
      path closes the conversation if it is open. */
  function Delete(s: ChatState, id: Id, now: Instant, patch: Ack, hard: Ack): (r: ChatState)
    ensures patch.Ok? || hard.Ok? ==> r.conversations == Without(s.conversations, id)
    ensures patch.Ok? && id in Ids(s.conversations) ==>
      && r.deleted == [Find(s.conversations, id).value.(deletedAt := Some(now))] + s.deleted
      && IsTrashed(r.deleted[0])
    ensures patch.Ok? && id !in Ids(s.conversations) ==> r.deleted == s.deleted
    ensures patch.Failed? ==> r.deleted == s.deleted
    ensures patch.Ok? || hard.Ok? ==>
      && (s.current.Some? && s.current.value.id == id ==> r.current.None? && r.messages == [])
      && (!(s.current.Some? && s.current.value.id == id) ==> r.current == s.current && r.messages == s.messages)
      && r.input == s.input && r.editingId == s.editingId && r.editTitle == s.editTitle
      && r.loading == s.loading
    ensures patch.Failed? && hard.Failed? ==> r == s
  {
    match patch
    case Ok(_) =>
      var trashed := match Find(s.conversations, id)
                     case Some(c) => [c.(deletedAt := Some(now))] + s.deleted
                     case None => s.deleted;
      CloseIf(s.(deleted := trashed, conversations := Without(s.conversations, id)), id)
    case Failed =>
      match hard
      case Ok(_) => CloseIf(s.(conversations := Without(s.conversations, id)), id)
      case Failed => s
  }

  /** restoreConversation: on success the trashed entry comes back to the
      head of the active list with `deleted_at` cleared and leaves the trash;
      on failure nothing changes. */
  function Restore(s: ChatState, id: Id, patch: Ack): (r: ChatState)
    ensures patch.Ok? ==>
      && r.deleted == Without(s.deleted, id)
      && SameView(s, r) && r.loading == s.loading
    ensures patch.Ok? && id in Ids(s.deleted) ==>
      && r.conversations == [Find(s.deleted, id).value.(deletedAt := None)] + s.conversations
      && !IsTrashed(r.conversations[0])
    ensures patch.Ok? && id !in Ids(s.deleted) ==> r.conversations == s.conversations
    ensures patch.Failed? ==> r == s
  {
    match patch
    case Ok(_) =>
      var back := match Find(s.deleted, id)
                  case Some(c) => [c.(deletedAt := None)] + s.conversations
                  case None => s.conversations;
      s.(conversations := back, deleted := Without(s.deleted, id))
    case Failed => s
  }

  /** permanentlyDelete: on success the entry leaves the trash and nothing
      else changes; on failure nothing changes. */
  function Purge(s: ChatState, id: Id, del: Ack): (r: ChatState)
    ensures del.Ok? ==>
      && r.deleted == Without(s.deleted, id)
      && r.conversations == s.conversations && SameView(s, r) && r.loading == s.loading
    ensures del.Failed? ==> r == s
  {
    match del
    case Ok(_) => s.(deleted := Without(s.deleted, id))
    case Failed => s
  }

  // ---------------------------------------------------------------------
  // startEditing, saveTitle and the rename box

  /** startEditing: enters rename mode for `c`, prefilled with its title or
      the default title when it has none. */
  function StartEditing(s: ChatState, c: Conversation): (r: ChatState)
    ensures r.editingId == Some(c.id)
    ensures Truthy(c.title) ==> r.editTitle == c.title.value
    ensures !Truthy(c.title) ==> r.editTitle == DefaultTitle
    ensures r.conversations == s.conversations && r.deleted == s.deleted && r.current == s.current
    ensures r.messages == s.messages && r.input == s.input && r.loading == s.loading
  {
    s.(editingId := Some(c.id), editTitle := if Truthy(c.title) then c.title.value else DefaultTitle)
  }

  /** saveTitle: a blank rename box leaves rename mode without a request (the
      outcome is never consulted); otherwise a successful PATCH gives the
      active-list entries with this id the trimmed title. Rename mode ends in
      every case; the trash and the open conversation are never touched. */
  function SaveTitle(s: ChatState, id: Id, patch: Ack): (r: ChatState)
    ensures r.editingId.None?
    ensures r.deleted == s.deleted && r.current == s.current && r.messages == s.messages
    ensures r.input == s.input && r.editTitle == s.editTitle && r.loading == s.loading
    ensures IsBlank(s.editTitle) || patch.Failed? ==> r.conversations == s.conversations
    ensures !IsBlank(s.editTitle) && patch.Ok? ==>
      r.conversations == Retitle(s.conversations, id, Trim(s.editTitle))
  {
    var title := Trim(s.editTitle);
    if title == [] then s.(editingId := None)
    else match patch
      case Ok(_) => s.(conversations := Retitle(s.conversations, id, title), editingId := None)
      case Failed => s.(editingId := None)
  }

  /** Escape in the rename box: rename mode ends and nothing else changes,
      the rename box keeping its text. */
  function CancelEdit(s: ChatState): (r: ChatState)
    ensures r.editingId.None?
    ensures r.conversations == s.conversations && r.deleted == s.deleted
    ensures SameView(s.(editingId := None), r) && r.loading == s.loading
  {
    s.(editingId := None)
  }

  // ---------------------------------------------------------------------
  // The screen as a state machine

  /** Every trigger of the chat screen, with the outcomes its requests get. */
  datatype Event =
    | LoadLists(first: Outcome<Listing>, second: Outcome<Listing>)
    | OpenThread(thread: Outcome<Thread>)
    | Back
    | NewConversation(created: Outcome<Conversation>)
    | TypeInput(text: string)
    | SendInput(sentAt: Instant, repliedAt: Instant, reply: Outcome<Reply>, rename: Ack)
    | SoftDelete(id: Id, now: Instant, patch: Ack, hard: Ack)
    | RestoreFromTrash(id: Id, patch: Ack)
    | PurgeFromTrash(id: Id, del: Ack)
    | BeginRename(target: Conversation)
    | TypeTitle(text: string)
    | CommitRename(id: Id, patch: Ack)
    | CancelRename

  function Apply(s: ChatState, e: Event): ChatState {
    match e
    case LoadLists(a, b) => Load(s, a, b)
    case OpenThread(t) => Open(s, t)
    case Back => Close(s)
    case NewConversation(c) => StartNew(s, c)
    case TypeInput(text) => s.(input := text)
    case SendInput(at, back, reply, rename) => Send(s, at, back, reply, rename)
    case SoftDelete(id, now, patch, hard) => Delete(s, id, now, patch, hard)
    case RestoreFromTrash(id, patch) => Restore(s, id, patch)
    case PurgeFromTrash(id, del) => Purge(s, id, del)
    case BeginRename(c) => StartEditing(s, c)
    case TypeTitle(text) => s.(editTitle := text)
    case CommitRename(id, patch) => SaveTitle(s, id, patch)
    case CancelRename => CancelEdit(s)
  }

  function Run(s: ChatState, trace: seq<Event>): ChatState
    decreases |trace|
  {
    if |trace| == 0 then s else Run(Apply(s, trace[0]), trace[1..])
  }
}

=== FILE: conversation_lists.dfy ===
/** Conversation records and the list operations the chat screen performs on
    them: `filter`, `find` by id and the `map` that renames one entry. */
module ConversationLists {
  import opened Wrappers
  import opened Text

  type Id = string

  /** A conversation as the server returns it. Only the fields the chat screen
      reads or writes are kept; object spreads carry the others unchanged. */
  datatype Conversation = Conversation(id: Id, title: Option<string>, deletedAt: Option<string>)

  /** A conversation in the trash: its `deleted_at` is truthy. */
  predicate IsTrashed(c: Conversation) {
    Truthy(c.deletedAt)
  }

  /** An active-list entry: its `deleted_at` is falsy. */
  predicate IsLive(c: Conversation) {
    !IsTrashed(c)
  }

  function Ids(cs: seq<Conversation>): set<Id> {
    set c | c in cs :: c.id
  }

  lemma IdsCons(c: Conversation, cs: seq<Conversation>)
    ensures Ids([c] + cs) == {c.id} + Ids(cs)
  {
    assert forall x :: x in [c] + cs <==> x == c || x in cs;
  }

  /** Array filtering: keeps exactly the elements satisfying `keep`, each as
      often as it occurs, in their original order (`FilterAppend` and
      `FilterSingleton` pin the order down). */
  function Filter<T(!new)>(xs: seq<T>, keep: T -> bool): (r: seq<T>)
    ensures |r| <= |xs|
    ensures forall x :: multiset(r)[x] == if keep(x) then multiset(xs)[x] else 0
  {
    if |xs| == 0 then []
    else
      var rest := Filter(xs[1..], keep);
      assert xs == [xs[0]] + xs[1..];
      if keep(xs[0]) then [xs[0]] + rest else rest
  }

  lemma FilterMembership<T(!new)>(xs: seq<T>, keep: T -> bool, x: T)
    ensures x in Filter(xs, keep) <==> x in xs && keep(x)
  {
    assert x in Filter(xs, keep) <==> multiset(Filter(xs, keep))[x] > 0;
    assert x in xs <==> multiset(xs)[x] > 0;
  }

  /** Filtering distributes over concatenation, so the kept elements stay in
      the order they had. */
  lemma {:induction false} FilterAppend<T(!new)>(a: seq<T>, b: seq<T>, keep: T -> bool)
    ensures Filter(a + b, keep) == Filter(a, keep) + Filter(b, keep)
    decreases |a|
  {
    if |a| > 0 {
      assert (a + b)[0] == a[0];
      assert (a + b)[1..] == a[1..] + b;
      FilterAppend(a[1..], b, keep);
    } else {
      assert a + b == b;
    }
  }

  /** A one-element list keeps its element exactly when it passes the test. */
  lemma FilterSingleton<T(!new)>(x: T, keep: T -> bool)
    ensures Filter([x], keep) == if keep(x) then [x] else []
  {
    assert [x][1..] == [];
  }

  /** Filtering with a predicate every element already satisfies changes nothing. */
  lemma {:induction false} FilterAll<T(!new)>(xs: seq<T>, keep: T -> bool)
    requires forall i :: 0 <= i < |xs| ==> keep(xs[i])
    ensures Filter(xs, keep) == xs
  {
    if |xs| > 0 {
      FilterAll(xs[1..], keep);
    }
  }

  /** The test "has an id other than `id`". */
  function OtherThan(id: Id): Conversation -> bool {
    (c: Conversation) => c.id != id
  }

  /** Drops every entry with this id and keeps the others, in order. */
  function Without(cs: seq<Conversation>, id: Id): (r: seq<Conversation>)
    ensures Ids(r) == Ids(cs) - {id}
    ensures forall c :: multiset(r)[c] == if c.id == id then 0 else multiset(cs)[c]
    ensures forall c :: c in r <==> c in cs && c.id != id
  {
    var r := Filter(cs, OtherThan(id));
    assert forall c :: OtherThan(id)(c) == (c.id != id);
    forall c ensures c in r <==> c in cs && c.id != id {
      FilterMembership(cs, OtherThan(id), c);
    }
    r
  }

  /** Removal works piecewise on a concatenation, so the kept entries stay
      in their order. */
  lemma WithoutAppend(a: seq<Conversation>, b: seq<Conversation>, id: Id)
    ensures Without(a + b, id) == Without(a, id) + Without(b, id)
  {
    FilterAppend(a, b, OtherThan(id));
  }

  /** A single entry is kept exactly when it has another id; with
      `WithoutAppend` this fixes the result of `Without` entry by entry. */
  lemma WithoutSingleton(c: Conversation, id: Id)
    ensures Without([c], id) == if c.id == id then [] else [c]
  {
    FilterSingleton(c, OtherThan(id));
  }

  /** Removing an id that is absent changes nothing. */
  lemma WithoutAbsent(cs: seq<Conversation>, id: Id)
    requires id !in Ids(cs)
    ensures Without(cs, id) == cs
  {
    forall i | 0 <= i < |cs| ensures OtherThan(id)(cs[i]) {
      assert cs[i] in cs;
    }
    FilterAll(cs, OtherThan(id));
  }

  /** Removing the id of the head drops the head. */
  lemma WithoutHead(c: Conversation, cs: seq<Conversation>)
    ensures Without([c] + cs, c.id) == Without(cs, c.id)
  {
    assert ([c] + cs)[1..] == cs;
  }

  /** Position of the first conversation with this id, or -1. */
  function IndexOf(cs: seq<Conversation>, id: Id): (k: int)
    ensures -1 <= k < |cs|
    ensures k == -1 <==> id !in Ids(cs)
    ensures 0 <= k ==> cs[k].id == id
    ensures forall j :: 0 <= j < k ==> cs[j].id != id
  {
    if |cs| == 0 then -1
    else if cs[0].id == id then 0
    else
      var k := IndexOf(cs[1..], id);
      assert cs == [cs[0]] + cs[1..];
      IdsCons(cs[0], cs[1..]);
      if k < 0 then -1 else k + 1
  }

  /** Lookup by id: the first entry with this id, if any. */
  function Find(cs: seq<Conversation>, id: Id): (r: Option<Conversation>)
    ensures r.None? <==> id !in Ids(cs)
    ensures r.Some? ==> r.value in cs && r.value.id == id
    ensures r.Some? ==> r.value == cs[IndexOf(cs, id)]
  {
    var k := IndexOf(cs, id);
    if k < 0 then None else Some(cs[k])
  }

  /** Renaming by id across a list: every entry with that id gets the title,
      every other entry is kept as it was. */
  function Retitle(cs: seq<Conversation>, id: Id, title: string): (r: seq<Conversation>)
    ensures |r| == |cs|
    ensures forall i :: 0 <= i < |r| ==> r[i].id == cs[i].id && r[i].deletedAt == cs[i].deletedAt
    ensures forall i :: 0 <= i < |r| && cs[i].id == id ==> r[i].title == Some(title)
    ensures forall i :: 0 <= i < |r| && cs[i].id != id ==> r[i] == cs[i]
  {
    seq(|cs|, i requires 0 <= i < |cs| => if cs[i].id == id then cs[i].(title := Some(title)) else cs[i])
  }

  lemma RetitleKeepsIds(cs: seq<Conversation>, id: Id, title: string)
    ensures Ids(Retitle(cs, id, title)) == Ids(cs)
    ensures (forall c :: c in cs ==> !IsTrashed(c)) ==>
      forall c :: c in Retitle(cs, id, title) ==> !IsTrashed(c)
  {
    var r := Retitle(cs, id, title);
    forall x | x in Ids(cs) ensures x in Ids(r) {
      var i :| 0 <= i < |cs| && cs[i].id == x;
      assert r[i] in r;
    }
    forall x | x in Ids(r) ensures x in Ids(cs) {
      var i :| 0 <= i < |r| && r[i].id == x;
      assert cs[i] in cs;
    }
    if forall c :: c in cs ==> !IsTrashed(c) {
      forall c | c in r ensures !IsTrashed(c) {
        var i :| 0 <= i < |r| && r[i] == c;
        assert cs[i] in cs;
      }
    }
  }
}

=== FILE: helpers.dfy ===
/** The two pure helpers of the chat screen: the title derived from a first
    message, and the relative-day label shown beside a conversation. */
module Helpers {
  import opened Text

  const DefaultTitle := "New Conversation"
  const MaxTitleLength := 40
  /** A space at an index above this one is an acceptable place to cut. */
  const MinCutIndex := 20
  const Ellipsis := "..."

  /** `cut` is where a long `content` is cut: at the last space among the
      first 40 characters if that space lies past index 20, else at 40. */
  ghost predicate IsTitleCut(content: string, cut: int)
    requires |content| > MaxTitleLength
  {
    || (cut == MaxTitleLength
        && forall j :: MinCutIndex < j < MaxTitleLength ==> content[j] != ' ')
    || (MinCutIndex < cut < MaxTitleLength && content[cut] == ' '
        && forall j :: cut < j < MaxTitleLength ==> content[j] != ' ')
  }

  /** There is only one cut point for a given content. */
  lemma TitleCutUnique(content: string, a: int, b: int)
    requires |content| > MaxTitleLength
    requires IsTitleCut(content, a) && IsTitleCut(content, b)
    ensures a == b
  {
  }

  /** generateTitle: empty content gets the default title, content of at most
      40 characters is kept whole, longer content is cut and marked with an
      ellipsis. */
  function GenerateTitle(content: string): (r: string)
    ensures content == [] ==> r == DefaultTitle
    ensures 0 < |content| <= MaxTitleLength ==> r == content
    ensures |content| > MaxTitleLength ==>
      && |Ellipsis| < |r| <= MaxTitleLength + |Ellipsis|
      && r[|r| - |Ellipsis|..] == Ellipsis
      && r[..|r| - |Ellipsis|] == content[..|r| - |Ellipsis|]
      && IsTitleCut(content, |r| - |Ellipsis|)
    ensures |r| <= MaxTitleLength + |Ellipsis|
  {
    if content == [] then DefaultTitle
    else if |content| <= MaxTitleLength then content
    else
      var truncated := content[..MaxTitleLength];
      var lastSpace := LastIndexOf(truncated, ' ');
      var head := if lastSpace > MinCutIndex then truncated[..lastSpace] else truncated;
      assert forall j :: lastSpace < j < MaxTitleLength ==> content[j] == truncated[j];
      head + Ellipsis
  }

  /** The head of a long title is exactly the content up to the unique cut
      point: the title is determined by `IsTitleCut` alone. */
  lemma GenerateTitleLongForm(content: string, cut: int)
    requires |content| > MaxTitleLength
    requires IsTitleCut(content, cut)
    ensures GenerateTitle(content) == content[..cut] + Ellipsis
  {
    var r := GenerateTitle(content);
    TitleCutUnique(content, cut, |r| - |Ellipsis|);
    assert r == r[..|r| - |Ellipsis|] + r[|r| - |Ellipsis|..];
  }

  // ---------------------------------------------------------------------
  // formatDate

  const DayMs := 1000 * 60 * 60 * 24
  const WeekDays := 7

  /** What `new Date(dateString)` made of the stored timestamp. */
  datatype DateInput =
    | Missing          // null, undefined or the empty string
    | Unparseable      // a Date whose time is NaN
    | At(ms: int)      // milliseconds since the epoch

  /** `d` is the number of whole days in `diff` milliseconds, rounded down. */
  ghost predicate IsFloorDays(diff: int, d: int) {
    d * DayMs <= diff < d * DayMs + DayMs
  }

  /** Whole days from `thenMs` to `nowMs`, rounded down (towards minus
      infinity for future dates). */
  function DaysBetween(nowMs: int, thenMs: int): (d: int)
    ensures IsFloorDays(nowMs - thenMs, d)
  {
    (nowMs - thenMs) / DayMs
  }

  lemma FloorDaysUnique(diff: int, a: int, b: int)
    requires IsFloorDays(diff, a) && IsFloorDays(diff, b)
    ensures a == b
  {
  }

  function RelativeLabel(days: int): string {
    if days == 0 then "Today"
    else if days == 1 then "Yesterday"
    else IntToString(days) + " days ago"
  }

  /** formatDate. `shortDate` is the locale's "short month, numeric day"
      rendering, left uninterpreted. Dates within the last week (and dates in
      the future) get a relative label; older dates get the short date. */
  function FormatDate(input: DateInput, nowMs: int, shortDate: int -> string): (r: string)
    ensures !input.At? ==> r == ""
    ensures input.At? ==>
      var d := DaysBetween(nowMs, input.ms);
      && (d < WeekDays ==> r == RelativeLabel(d))
      && (d >= WeekDays ==> r == shortDate(input.ms))
  {
    match input
    case Missing => ""
    case Unparseable => ""
    case At(ms) =>
      var diffDays := DaysBetween(nowMs, ms);
      if diffDays == 0 then "Today"
      else if diffDays == 1 then "Yesterday"
      else if diffDays < WeekDays then IntToString(diffDays) + " days ago"
      else shortDate(ms)
  }

  /** Relative labels name their day count unambiguously: two dates with the
      same relative label lie the same number of whole days back. */
  lemma RelativeLabelInjective(a: int, b: int)
    requires RelativeLabel(a) == RelativeLabel(b)
    ensures a == b
  {
    var ta, tb := RelativeLabel(a), RelativeLabel(b);
    if a != 0 && a != 1 && b != 0 && b != 1 {
      var sa, sb := IntToString(a), IntToString(b);
      assert ta[..|sa|] == sa && ta[|sa|..] == " days ago";
      assert tb[..|sb|] == sb && tb[|sb|..] == " days ago";
      assert |sa| == |sb|;
      IntToStringInjective(a, b);
    }
  }

  /** A timestamp less than a day old, and not in the future, reads "Today". */
  lemma FormatDateToday(nowMs: int, thenMs: int, shortDate: int -> string)
    requires 0 <= nowMs - thenMs < DayMs
    ensures FormatDate(At(thenMs), nowMs, shortDate) == "Today"
  {
    FloorDaysUnique(nowMs - thenMs, DaysBetween(nowMs, thenMs), 0);
  }

  /** A timestamp between one and two days old reads "Yesterday". */
  lemma FormatDateYesterday(nowMs: int, thenMs: int, shortDate: int -> string)
    requires DayMs <= nowMs - thenMs < 2 * DayMs
    ensures FormatDate(At(thenMs), nowMs, shortDate) == "Yesterday"
  {
    FloorDaysUnique(nowMs - thenMs, DaysBetween(nowMs, thenMs), 1);
  }

  /** A timestamp a week old or older reads as the locale's short date. */
  lemma FormatDateOld(nowMs: int, thenMs: int, shortDate: int -> string)
    requires nowMs - thenMs >= WeekDays * DayMs
    ensures FormatDate(At(thenMs), nowMs, shortDate) == shortDate(thenMs)
  {
  }

  /** A timestamp even one millisecond in the future is floored to day -1
      and labelled "-1 days ago". */
  lemma FormatDateFuture(nowMs: int, shortDate: int -> string)
    ensures FormatDate(At(nowMs + 1), nowMs, shortDate) == "-1 days ago"
  {
    FloorDaysUnique(-1, DaysBetween(nowMs, nowMs + 1), -1);
    assert IntToString(-1) == "-1";
  }
}

=== FILE: session.dfy ===
/** The authentication context: the token persisted in local storage under
    `sw_token`, the token and user held in memory, and the loading flag the
    application root waits on. Every request is an outcome parameter. */
module Session {
  import opened Wrappers
  import opened Text

  /** The profile returned by `GET /users/me`, carried as received. */
  datatype User = User(id: string, email: string, displayName: string)

  datatype SessionState = SessionState(
    stored: Option<string>,   // localStorage 'sw_token'
    token: Option<string>,
    user: Option<User>,
    loading: bool)

  /** What the root renders: the loading screen, the auth screen, or the app. */
  datatype Status = Loading | Unauthenticated | Authenticated

  function StatusOf(s: SessionState): (st: Status)
    ensures st == Authenticated <==> !s.loading && s.user.Some?
    ensures st == Loading <==> s.loading
  {
    if s.loading then Loading
    else if s.user.Some? then Authenticated
    else Unauthenticated
  }

  /** The persisted token is the in-memory token. */
  predicate Mirrored(s: SessionState) {
    s.stored == s.token
  }

  /** Mount: the token is read from storage, no user, still loading. */
  function Mount(stored: Option<string>): (s: SessionState)
    ensures s.stored == stored && s.token == stored
    ensures s.loading && s.user.None?
  {
    SessionState(stored, stored, None, true)
  }

  /** Response of `GET /users/me` that did not throw. */
  datatype UserReply = UserReply(ok: bool, user: User)

  /** logout: storage, token and user are all cleared; nothing else changes. */
  function Logout(s: SessionState): (r: SessionState)
    ensures r.stored.None? && r.token.None? && r.user.None?
    ensures r.loading == s.loading
    ensures Mirrored(r)
  {
    s.(stored := None, token := None, user := None)
  }

  /** fetchUser: an ok reply sets the user; a non-ok reply or a thrown
      request logs out. Either way loading ends. */
  function FetchUser(s: SessionState, reply: Outcome<UserReply>): (r: SessionState)
    ensures !r.loading
    ensures r.user.Some? <==> reply.Ok? && reply.payload.ok
    ensures reply.Ok? && reply.payload.ok ==>
      r.user == Some(reply.payload.user) && r.token == s.token && r.stored == s.stored
    ensures !(reply.Ok? && reply.payload.ok) ==> r == Logout(s).(loading := false)
  {
    match reply
    case Ok(UserReply(true, u)) => s.(user := Some(u), loading := false)
    case _ => Logout(s).(loading := false)
  }

  /** The effect that runs at mount and whenever the token changes: a truthy
      token is validated by fetching the user, otherwise loading just ends. */
  function TokenEffect(s: SessionState, reply: Outcome<UserReply>): (r: SessionState)
    ensures !r.loading
    ensures Truthy(s.token) ==> r == FetchUser(s, reply)
    ensures !Truthy(s.token) ==> r == s.(loading := false)
  {
    if Truthy(s.token) then FetchUser(s, reply) else s.(loading := false)
  }

  /** Body of a `POST /auth/login` or `/auth/signup` response that parsed. */
  datatype AuthReply = AuthReply(ok: bool, token: Option<string>, message: Option<string>)

  /** What `login`/`signup` hand back: `{success: true}`, `{success: false,
      error}`, or a rejected promise (network or JSON failure). */
  datatype CallResult = Succeeded | Refused(error: string) | Rejected

  datatype Settled = Settled(state: SessionState, result: CallResult)

  /** Shared body of login and signup; `fallback` is the message used when the
      server sent none. */
  function Authenticate(s: SessionState, reply: Outcome<AuthReply>, fallback: string): (r: Settled)
    ensures r.result == Succeeded <==> reply.Ok? && reply.payload.ok && Truthy(reply.payload.token)
    ensures r.result == Succeeded ==>
      r.state == s.(stored := reply.payload.token, token := reply.payload.token)
    ensures r.result != Succeeded ==> r.state == s
    ensures r.result == Rejected <==> reply.Failed?
    ensures r.result.Refused? ==>
      r.result.error == if Truthy(reply.payload.message) then reply.payload.message.value else fallback
  {
    match reply
    case Failed => Settled(s, Rejected)
    case Ok(data) =>
      if data.ok && Truthy(data.token) then
        Settled(s.(stored := data.token, token := data.token), Succeeded)
      else
        Settled(s, Refused(if Truthy(data.message) then data.message.value else fallback))
  }

  function Login(s: SessionState, reply: Outcome<AuthReply>): (r: Settled)
    ensures r.result == Succeeded <==> reply.Ok? && reply.payload.ok && Truthy(reply.payload.token)
    ensures r.result == Succeeded ==>
      r.state == s.(stored := reply.payload.token, token := reply.payload.token)
    ensures r.result == Rejected <==> reply.Failed?
    ensures r.result.Refused? ==>
      r.result.error == if Truthy(reply.payload.message) then reply.payload.message.value else "Login failed"
    ensures r.result != Succeeded ==> r.state == s
  {
    Authenticate(s, reply, "Login failed")
  }

  function Signup(s: SessionState, reply: Outcome<AuthReply>): (r: Settled)
    ensures r.result == Succeeded <==> reply.Ok? && reply.payload.ok && Truthy(reply.payload.token)
    ensures r.result == Succeeded ==>
      r.state == s.(stored := reply.payload.token, token := reply.payload.token)
    ensures r.result == Rejected <==> reply.Failed?
    ensures r.result.Refused? ==>
      r.result.error == if Truthy(reply.payload.message) then reply.payload.message.value else "Signup failed"
    ensures r.result != Succeeded ==> r.state == s
  {
    Authenticate(s, reply, "Signup failed")
  }

  /** The triggers the context reacts to, each with the outcome of the request
      it makes. `Refresh` is a direct `fetchUser()` call (after a profile
      update); `Effect` is the token-change effect. */
  datatype Event =
    | DoLogin(login: Outcome<AuthReply>)
    | DoSignup(signup: Outcome<AuthReply>)
    | DoLogout
    | Refresh(refresh: Outcome<UserReply>)
    | Effect(effect: Outcome<UserReply>)

  function Step(s: SessionState, e: Event): SessionState {
    match e
    case DoLogin(o) => Login(s, o).state
    case DoSignup(o) => Signup(s, o).state
    case DoLogout => Logout(s)
    case Refresh(o) => FetchUser(s, o)
    case Effect(o) => TokenEffect(s, o)
  }

  function Run(s: SessionState, trace: seq<Event>): SessionState
    decreases |trace|
  {
    if |trace| == 0 then s else Run(Step(s, trace[0]), trace[1..])
  }

  /** Every transition keeps local storage equal to the in-memory token. */
  lemma StepMirrored(s: SessionState, e: Event)
    requires Mirrored(s)
    ensures Mirrored(Step(s, e))
  {
    match e
    case DoLogin(o) =>
    case DoSignup(o) =>
    case DoLogout =>
    case Refresh(o) =>
    case Effect(o) =>
  }

  /** From mount onwards, whatever happens, storage and token never diverge. */
  lemma {:induction false} RunMirrored(s: SessionState, trace: seq<Event>)
    requires Mirrored(s)
    ensures Mirrored(Run(s, trace))
    decreases |trace|
  {
    if |trace| > 0 {
      StepMirrored(s, trace[0]);
      RunMirrored(Step(s, trace[0]), trace[1..]);
    }
  }

  /** Restoring a session (mount followed by the token effect) always settles:
      a stored token the server rejects, or a request that throws, leaves the
      user signed out with storage cleared; an accepted one signs the user in. */
  lemma RestoreSettles(stored: Option<string>, reply: Outcome<UserReply>)
    ensures var r := TokenEffect(Mount(stored), reply);
      && StatusOf(r) != Loading
      && (StatusOf(r) == Authenticated <==> Truthy(stored) && reply.Ok? && reply.payload.ok)
      && (Truthy(stored) && !(reply.Ok? && reply.payload.ok) ==> r.stored.None? && r.token.None?)
      && (StatusOf(r) == Authenticated ==> r.token == stored && r.user == Some(reply.payload.user))
  {
  }

  /** A server answering `{token: "t1"}` signs in with "t1" persisted; one
      answering `{message: "Invalid credentials"}` with an error status
      leaves the state alone and reports that message. */
  lemma LoginScenarios(s: SessionState)
    ensures Login(s, Ok(AuthReply(true, Some("t1"), None)))
      == Settled(s.(stored := Some("t1"), token := Some("t1")), Succeeded)
    ensures Login(s, Ok(AuthReply(false, None, Some("Invalid credentials"))))
      == Settled(s, Refused("Invalid credentials"))
  {
  }

  /** Logging out of a signed-in session and letting the token effect run
      lands on the auth screen with nothing persisted. */
  lemma LogoutSettles(s: SessionState, reply: Outcome<UserReply>)
    ensures var r := TokenEffect(Logout(s), reply);
      StatusOf(r) == Unauthenticated && r.stored.None? && r.token.None?
  {
  }

  /** A successful login followed by the effect it triggers signs the user in
      exactly when the profile fetch succeeds, with the new token persisted. */
  lemma LoginThenEffect(s: SessionState, login: Outcome<AuthReply>, fetch: Outcome<UserReply>)
    requires Login(s, login).result == Succeeded
    ensures var r := TokenEffect(Login(s, login).state, fetch);
      && (StatusOf(r) == Authenticated <==> fetch.Ok? && fetch.payload.ok)
      && (StatusOf(r) == Authenticated ==> r.stored == login.payload.token && r.token == login.payload.token)
  {
  }
}

=== FILE: text.dfy ===
/** String helpers with the JavaScript meaning the application relies on:
    `String.prototype.trim`, `lastIndexOf` on one character, and the decimal
    rendering of an integer in a template literal. A string is a sequence of
    Unicode scalar values. */
module Text {
  import opened Wrappers

  /** JavaScript truthiness of a nullable string: present and non-empty. */
  predicate Truthy(o: Option<string>) {
    o.Some? && o.value != ""
  }

  /** The ECMAScript WhiteSpace and LineTerminator code points, which are
      exactly the characters `trim` strips from both ends. */
  predicate IsSpace(c: char) {
    || c == '\t' || c == '\n' || c == '\U{000B}' || c == '\U{000C}' || c == '\r'
    || c == ' ' || c == '\U{00A0}' || c == '\U{1680}'
    || ('\U{2000}' <= c <= '\U{200A}')
    || c == '\U{2028}' || c == '\U{2029}' || c == '\U{202F}' || c == '\U{205F}'
    || c == '\U{3000}' || c == '\U{FEFF}'
  }

  /** A string that `trim` reduces to the empty (falsy) string. */
  predicate IsBlank(s: string) {
    forall i :: 0 <= i < |s| ==> IsSpace(s[i])
  }

  /** Number of whitespace characters at the start of `s`. */
  function LeadingSpaces(s: string): (n: nat)
    ensures n <= |s|
    ensures forall i :: 0 <= i < n ==> IsSpace(s[i])
    ensures n < |s| ==> !IsSpace(s[n])
  {
    if |s| == 0 || !IsSpace(s[0]) then 0 else 1 + LeadingSpaces(s[1..])
  }

  /** Number of whitespace characters at the end of `s`. */
  function TrailingSpaces(s: string): (n: nat)
    ensures n <= |s|
    ensures forall i :: |s| - n <= i < |s| ==> IsSpace(s[i])
    ensures n < |s| ==> !IsSpace(s[|s| - n - 1])
  {
    if |s| == 0 || !IsSpace(s[|s| - 1]) then 0 else 1 + TrailingSpaces(s[..|s| - 1])
  }

  /** `s[lo..hi]` is what trimming `s` keeps: only whitespace lies outside it,
      and a non-empty kept part starts and ends with a non-whitespace character. */
  ghost predicate TrimmedAt(s: string, lo: nat, hi: nat) {
    && lo <= hi <= |s|
    && IsBlank(s[..lo])
    && IsBlank(s[hi..])
    && (lo < hi ==> !IsSpace(s[lo]) && !IsSpace(s[hi - 1]))
  }

  /** End of the part `trim` keeps. */
  function TrimEnd(s: string): (hi: nat)
    ensures LeadingSpaces(s) <= hi <= |s|
  {
    var lo := LeadingSpaces(s);
    if lo == |s| then lo else |s| - TrailingSpaces(s)
  }

  lemma TrimBounds(s: string)
    ensures TrimmedAt(s, LeadingSpaces(s), TrimEnd(s))
  {
    var lo, hi := LeadingSpaces(s), TrimEnd(s);
    assert IsBlank(s[..lo]) by {
      forall i | 0 <= i < lo ensures IsSpace(s[..lo][i]) {
        assert s[..lo][i] == s[i];
      }
    }
    assert IsBlank(s[hi..]) by {
      forall i | 0 <= i < |s| - hi ensures IsSpace(s[hi..][i]) {
        assert s[hi..][i] == s[hi + i];
      }
    }
  }

  /** `String.prototype.trim`. */
  function Trim(s: string): (r: string)
    ensures exists lo: nat, hi: nat :: TrimmedAt(s, lo, hi) && r == s[lo..hi]
    ensures r == [] <==> IsBlank(s)
  {
    TrimBounds(s);
    s[LeadingSpaces(s)..TrimEnd(s)]
  }

  /** Whatever split points are chosen, trimming keeps the same characters:
      the contract of `Trim` determines its result. */
  lemma TrimmedAtUnique(s: string, lo: nat, hi: nat, lo': nat, hi': nat)
    requires TrimmedAt(s, lo, hi) && TrimmedAt(s, lo', hi')
    ensures s[lo..hi] == s[lo'..hi']
  {
  }

  /** Trimming twice is trimming once. */
  lemma TrimIdempotent(s: string)
    ensures Trim(Trim(s)) == Trim(s)
  {
    var t := Trim(s);
    var lo: nat, hi: nat :| TrimmedAt(s, lo, hi) && t == s[lo..hi];
    assert TrimmedAt(t, 0, |t|) by {
      assert t[..0] == [] && t[|t|..] == [];
    }
    var lo': nat, hi': nat :| TrimmedAt(t, lo', hi') && Trim(t) == t[lo'..hi'];
    TrimmedAtUnique(t, 0, |t|, lo', hi');
  }

  /** `s.lastIndexOf(c)`: the greatest index holding `c`, or -1. */
  function LastIndexOf(s: string, c: char): (r: int)
    ensures -1 <= r < |s|
    ensures r == -1 <==> c !in s
    ensures 0 <= r ==> s[r] == c
    ensures forall j :: r < j < |s| ==> s[j] != c
  {
    if |s| == 0 then -1
    else if s[|s| - 1] == c then |s| - 1
    else
      var r := LastIndexOf(s[..|s| - 1], c);
      assert forall j :: r < j < |s| - 1 ==> s[..|s| - 1][j] == s[j];
      r
  }

  function DigitChar(d: nat): (c: char)
    requires d < 10
  {
    "0123456789"[d]
  }

  function DigitValue(c: char): (d: nat)
    requires '0' <= c <= '9'
  {
    (c as int - '0' as int) as nat
  }

  predicate IsDigits(s: string) {
    forall i :: 0 <= i < |s| ==> '0' <= s[i] <= '9'
  }

  /** Decimal rendering of a natural number, no leading zeros. */
  function NatToString(n: nat): (r: string)
    ensures |r| > 0 && IsDigits(r)
    ensures r[0] == '0' ==> n == 0
  {
    if n < 10 then [DigitChar(n)] else NatToString(n / 10) + [DigitChar(n % 10)]
  }

  /** Value of a string of decimal digits. */
  function ParseDigits(s: string): (n: nat)
    requires IsDigits(s)
  {
    if |s| == 0 then 0
    else ParseDigits(s[..|s| - 1]) * 10 + DigitValue(s[|s| - 1])
  }

  lemma {:induction false} NatToStringRoundTrip(n: nat)
    ensures ParseDigits(NatToString(n)) == n
  {
    var r := NatToString(n);
    if n >= 10 {
      NatToStringRoundTrip(n / 10);
      assert r[..|r| - 1] == NatToString(n / 10);
    }
  }

  /** An integer written into a template string: an optional minus sign, then
      the digits of its magnitude. */
  function IntToString(n: int): (r: string)
    ensures n < 0 <==> (|r| > 0 && r[0] == '-')
  {
    if n < 0 then "-" + NatToString(-n) else NatToString(n)
  }

  /** Reads back what `IntToString` wrote. */
  function ParseInt(s: string): (r: int)
  {
    if |s| > 0 && s[0] == '-' && IsDigits(s[1..]) then 0 - ParseDigits(s[1..])
    else if IsDigits(s) then ParseDigits(s)
    else 0
  }

  lemma IntToStringRoundTrip(n: int)
    ensures ParseInt(IntToString(n)) == n
  {
    if n < 0 {
      NatToStringRoundTrip(-n);
      assert IntToString(n)[1..] == NatToString(-n);
    } else {
      NatToStringRoundTrip(n);
    }
  }

  /** Different integers render differently. */
  lemma IntToStringInjective(a: int, b: int)
    requires IntToString(a) == IntToString(b)
    ensures a == b
  {
    IntToStringRoundTrip(a);
    IntToStringRoundTrip(b);
  }
}

=== FILE: wrappers.dfy ===
/** Option values for the nullable fields of the application's records, and
    the outcome of one remote request: it either resolves with a payload or
    fails. For requests made through the shared request helper, failing means
    a non-2xx status or a thrown network or parse error; for the session's own
    requests, which read the status themselves, it means only a thrown error. */
module Wrappers {

  datatype Option<+T> = None | Some(value: T)

  /** What a request resolved to, as seen by the code that awaited it. */
  datatype Outcome<+T> = Ok(payload: T) | Failed

  /** A request whose body is ignored by its caller. */
  type Ack = Outcome<()>
}
